=== FILE: README.md ===
# Flappy Gav 4D: the round-state machine in Dafny

This project models the per-round game logic of `FlappyGavGame` (game.js), a
browser endless-runner: the `splash` / `playing` / `gameOver` states, score,
streak, the depleting time clock, the speed scalar, the tutorial-to-live phase
switch, the crash sequencer, the player's kinematics, and the ring and obstacle
lists with their advance, collision, retirement and spawning rules.

The model is functional. An immutable `RoundState` is threaded through pure step
functions. These are the model of each source callback:

- `Round.StartGame` is the reset that `startGame` performs. The source then
  runs one `gameLoop` frame at once and starts the 100 ms interval
  (game.js:537-538). In the model that is `StartGame` followed by one
  `GameLoop.Frame`, with `Clock.ClockTick` steps interleaved from then on.
- `Round.GameOver` is `gameOver` with its final-score display corrected (see
  "## Findings"). `Round.GameOverAsWritten` is the code as written.
- `Clock.ClockTick` is the 100 ms `setInterval` callback.
- `GameLoop.Frame` is one `gameLoop` frame.
- `Crash.StartCrash` and `Crash.CrashFrame` are `startCrashAnimation` and one
  `animateCrash` frame.

The host runs the interval, the frame loop and the crash loop as independent
callbacks on one thread. In the model they are separate step functions that a
caller may interleave in any order. Inputs from outside enter as parameters:

- wall-clock time, as a `Date.now()` value in milliseconds;
- the steering input: keys, pointer-down flag and pointer position;
- every `Math.random()` draw the spawners consume.

Positions, speeds and times are `real`. This abstracts the JavaScript doubles.
Distances are compared squared: 6.25 for rings (radius 2.5) and 1.44 for
obstacles (radius 1.2). The collision tests use the mesh position
`this.gav.position`, which `updateControls` copies from `gavPosition`
(game.js:1241-1243). The model uses the player position for both.

Modules:

- `Geometry`: vectors and the saturating clamp.
- `Kinematics`: `updateControls`.
- `Entities`: rings, obstacles, spawn placement and reach tests.
- `Round`: the state, the invariant and the two resets.
- `Crash`: the crash sequencer.
- `Clock`: the depletion clock.
- `Tutorial`: the time-gated block at the top of `gameLoop`.
- `EntityPass`: `updateRings`, `collectRing` and `updateTerrain`.
- `GameLoop`: the frame and the lemmas that span several steps.

Some notes on what the code does, which the model follows:

- `collectRing` also raises `speed` by 0.01. A later ring in the same sweep
  advances by the raised speed, so the ring sweep is a sequential fold.
- `startCrashAnimation` runs the first `animateCrash` frame at once. So a new
  crash already has crash time 0.016.
- While crashing, `animateCrash` moves only the rendered mesh (`gav.position.y`).
  The modelled player position does not change.
- `startGame` does not reset the player. The preceding `gameOver`, or the
  constructor, leaves it at rest.
- `headbangActive` is never cleared, so only the first live switch of a page
  session records a headbang start time.
- A tree obstacle's origin is on the ground (y = -2). The player stays at
  y >= -0.4. So a tree can never come within the 1.2 collision radius, and only
  buildings end a round by collision (`Entities.TreesNeverHit`).

## Model

| member | source | states |
|---|---|---|
| Geometry.Clamp | game.js:1230-1231 | `Math.max(lo, Math.min(hi, v))` saturates into [lo, hi]: the identity inside the range, the nearer bound outside it |
| Kinematics.Steer | game.js:1203-1221 | each held key adds or removes 0.04 on its axis and opposing keys cancel; a pressed pointer replaces both components with 0.8 × pointer; z is untouched |
| Kinematics.GroundClamp | game.js:1233-1238 | the head-bottom test sets y to exactly -2 + 0.6 = -1.4 when the head would sink below the ground, and leaves higher values alone |
| Kinematics.GroundClampNeverFires | game.js:1230-1238 | once y is clamped to >= -0.4, the head-bottom ground clamp never fires |
| Kinematics.UpdateControls | game.js:1200-1238 | for any prior velocity the new x is in [-4, 4] and y in [-0.4, 3.5]; the steered velocity is added to the position before it is damped by 0.9; positions outside the range saturate at the nearer bound; z is unchanged |
| Kinematics.PointerOverridesVelocity | game.js:1218-1227 | with the pointer down, the new velocity is 0.9 × 0.8 × pointer and does not depend on the previous velocity |
| Kinematics.CoastingDecays | game.js:1224-1227 | with no input the velocity keeps exactly 90% per frame |
| Kinematics.RestIsFixedPoint | game.js:1200-1238 | a player at rest with no input does not move |
| Kinematics.ControlsKeepBounds | game.js:1229-1231 | `updateControls` keeps the player inside the lane rectangle |
| Entities.SpawnedRing | game.js:1184-1194 | a new ring is uncollected, lateral in [-4, 4), above ground at y in [1, 4), and far ahead at z in (-130, -100] |
| Entities.SpawnedObstacle | game.js:1079-1159 | draws below 0.6 give a building and others a tree; a tree sits at y = -2; a building's centre is at y in [-1, 1) so its base is on the ground; x in [-6, 6), z in (-140, -100] |
| Entities.GroundedObstacleOutOfReach | game.js:1339-1341 | an obstacle with its origin on the ground is never within 1.2 of a player at y >= -0.4 |
| Entities.TreesNeverHit | game.js:1143-1151 | no spawned tree, wherever it has moved, can ever hit the player |
| Entities.CollectableRingNotRetired | game.js:1274-1285 | a ring within collection reach of the player (z = 0) is never also past z = 5, so the collect-then-retire double `splice` cannot hit the same ring |
| Round.Initial | game.js:15-50 | the constructor leaves the splash state with fresh round values, the player at rest, and the invariant holding |
| Round.StartGame | game.js:500-522 | a new round is `playing` with score 0, 60 s, streak 0, speed 1.0, empty lists, no crash, tutorial on, countdown inactive at 20, multiplier 1.0, and tutorial start = now; the player and headbang latch are untouched |
| Round.ResetRound | game.js:1591-1636 | game over restores the same round values, empties both lists, and puts the player at rest; the headbang latch survives |
| Round.GameOverAsWritten | game.js:1591-1654 | as written, the displayed final score is always 0 |
| Round.FinalScoreAlwaysZeroAsWritten | game.js:1596-1653 | a round that scored 500 is reported as 0 by the code as written, and as 500 by the corrected `GameOver` |
| Round.GameOver | game.js:1591-1654 | the reset of `gameOver` with the pre-reset score shown; it differs from the as-written version only in the displayed score |
| Round.RestartForgetsRound | game.js:500-522 | a restart after game over does not depend on anything from the finished round except the headbang latch |
| Round.StartsAtRest | game.js:500-522 | a round started from the splash screen or after a game over begins with the player at rest and the invariant holding |
| Crash.CrashFrame | game.js:1476-1518 | a frame with no crash is a no-op; otherwise crash time grows by exactly 0.016, and the round ends exactly when crash time passes 2.0; the ending frame is `gameOver`: round values reset, player at rest, and the round's score on the game-over screen |
| Crash.StartCrash | game.js:1384-1395 | a hit while already crashing changes nothing and does not reset crash time; otherwise the crash starts with crash time 0.016 |
| Crash.StartCrashRunsFirstFrame | game.js:1384-1395 | starting a crash equals arming it at time 0 and running one `animateCrash` frame |
| Crash.StartCrashIdempotent | game.js:1385 | triggering a crash twice is the same as triggering it once |
| Crash.CrashKeepsGoing | game.js:1478-1517 | from time 0, each of the first 125 crash frames only adds 0.016 and keeps the round going |
| Crash.CrashEndsOn126thFrame | game.js:1476-1517 | game over fires on the 126th crash frame and never earlier |
| Clock.ClockTick | game.js:1369-1381 | outside play a tick changes nothing and cancels itself; otherwise it removes 0.1 s and ends the round iff the clock reaches <= 0; the ending tick is `gameOver`: round values reset, player at rest, and the round's score on the game-over screen; the interval keeps running iff the round is still on |
| Clock.ClockRunsDown | game.js:1370-1381 | while the clock stays positive, n ticks remove exactly n × 0.1 s and change nothing else |
| Clock.FullRoundIs600Ticks | game.js:1369-1381 | from 60 s with no pickups, the round is still on after 599 ticks and over after 600 |
| Clock.StrayTicksInert | game.js:1371-1374 | after the round has ended, any number of ticks leave the state alone |
| Tutorial.ElapsedFloor | game.js:1723-1724 | the whole seconds of `(now - start) / 1000`, rounded down, are the milliseconds integer-divided by 1000 |
| Tutorial.CountdownValue | game.js:1722-1724 | `max(0, 20 - floor(elapsed))` is never negative, is at most 20 on a clock that runs forward, and is 20 at the start; on a forward clock it is exactly 20 minus the whole seconds elapsed before 20 s, and 0 from 20 s on |
| Tutorial.CountdownNonIncreasing | game.js:1722-1724 | the displayed countdown never goes up as time passes |
| Tutorial.CountdownReachesZero | game.js:1724 | 20 s after it starts, the countdown shows 0 |
| Tutorial.TutorialStep | game.js:1686-1763 | the countdown activates once, at elapsed >= 3 s, recording `now` as its start, which later frames keep; the shown value is `max(0, 20 - floor(seconds since that start))`; before 3 s the tutorial controller is untouched; tutorial mode ends exactly on a tutorial frame at elapsed >= 23 s; that frame multiplies speed by 1.15, sets the multiplier to 1.2 and latches the headbang, recording `now` as its start the first time; no other field changes |
| Tutorial.LiveSwitchOnce | game.js:1735-1762 | after the live switch, every later tutorial block leaves the state alone, so speed is multiplied exactly once |
| Tutorial.TutorialStepKeepsInv | game.js:1700-1747 | the tutorial block keeps the countdown in [0, 20] and the multiplier at 1.0 in the tutorial and 1.2 after it |
| EntityPass.CollectRing | game.js:1296-1313 | a pickup adds exactly 100 score, 5 s, 1 streak and 0.01 speed |
| EntityPass.RingSweep | game.js:1271-1287 | after a sweep that collects n rings, score, time, streak and speed have risen by 100n, 5n, n and 0.01n; every kept ring is out of reach and not retired; kept rings stay uncollected; which rings are collected and kept is stated by `RingSweepIsReference` |
| EntityPass.AdvanceUsesRunningSpeed | game.js:1271-1287 | in the reference description, ring i advances by the frame's starting speed plus 0.01 for every collectable ring before it, because each pickup raises `speed` mid-sweep |
| EntityPass.RingSweepIsReference | game.js:1271-1287 | the sequential ring sweep equals: advance each ring at the running speed, collect exactly the uncollected rings within 2.5 (one `collectRing` each), keep every other ring not past z = 5, advanced and in order |
| EntityPass.KeptRingsAreTheUncollectable | game.js:1274-1285 | a ring stays in the list iff it was not collected this frame and is not past z = 5 |
| EntityPass.CollectedRingsNeverScore | game.js:1274-1279 | a ring already marked collected is never collected again |
| EntityPass.UpdateRings | game.js:1269-1294 | the stats rise by one `collectRing` per uncollected ring within reach after advancing at the running speed; the list keeps every other unretired ring, advanced and in order, plus a new ring at the end when the spawn roll, tested against the post-pickup speed and with no tutorial gate, succeeds; nothing but stats and rings changes; the invariant is kept |
| EntityPass.RingAtPlayerCollected | game.js:1271-1287 | a ring that lands on the player is collected once (score +100, streak +1) and is gone at the end of the frame |
| EntityPass.ObstacleSweep | game.js:1336-1359 | the obstacle sweep keeps at most one entry per visited obstacle and never touches a crash already in progress; its full behaviour is stated by `ObstacleSweepIsReference` |
| EntityPass.SurvivorsAreUnretired | game.js:1354-1358 | retirement keeps exactly the obstacles with z <= 5 |
| EntityPass.AnyHitMeansSomeInReach | game.js:1339-1341 | a hit is registered iff some advanced obstacle is within reach |
| EntityPass.ObstacleSweepIsReference | game.js:1336-1359 | the sequential obstacle sweep equals: advance all, crash iff any one is in reach, keep the unretired ones in order |
| EntityPass.EveryLiveObstacleAdvancesOnce | game.js:1336-1359 | every obstacle alive after the frame is an input obstacle advanced exactly once by speed × multiplier, and every unretired input obstacle survives |
| EntityPass.UpdateTerrain | game.js:1328-1367 | the crash flag is set iff it was set or an advanced obstacle is in reach; a new crash has time 0.016 and a running one is untouched; obstacles spawn only at elapsed >= 23 s; nothing else changes |
| EntityPass.ObstacleForEachAsWritten | game.js:1336-1359 | the source's `forEach` + `splice` loop, on positions only |
| EntityPass.ForEachSpliceSkipsSuccessor | game.js:1336-1359 | an obstacle after a retired one is neither advanced nor checked in that frame by the code as written |
| EntityPass.RingForEachAsWritten | game.js:1271-1313 | the source's ring `forEach` with `splice` on collection (`collectRing`) and on retirement; a ring both collected and retired removes the last ring instead, through `indexOf` = -1 |
| EntityPass.RingForEachSkipsSuccessor | game.js:1271-1287 | a ring after a collected one is neither advanced nor checked in that frame by the code as written; the corrected sweep advances it at the raised speed |
| GameLoop.Gameplay | game.js:1766-1770 | controls, rings, then obstacles: score and speed never drop; the player stays in bounds; obstacles move at the post-pickup speed; a crash starts iff one of them reaches the moved player |
| GameLoop.GameplayMovesPlayerFirst | game.js:1767 | the gameplay step's player is exactly `updateControls` applied to the player it started with; the ring and obstacle passes do not move it |
| GameLoop.GameplayRingsAreReference | game.js:1768 | the gameplay step's stats are one `collectRing` per uncollected ring within reach of the moved player after advancing at the running speed; its rings are the other unretired rings, advanced and in order, plus a spawn at the end |
| GameLoop.GameplayCrashIsReference | game.js:1336-1352 | the gameplay step arms the crash, with its first `animateCrash` frame run (crash time 0.016), iff an obstacle advanced at the post-pickup speed reaches the moved player, leaves a running crash untouched, and does not change the game-over screen's score |
| GameLoop.GameplayObstaclesAreReference | game.js:1769 | the gameplay step's obstacles are the unretired ones after all advance by post-pickup speed × multiplier, in order, plus a spawn at the end only from 23 s on |
| GameLoop.Frame | game.js:1684-1781 | outside play a frame is a no-op; a frame never ends the round; while crashing only the tutorial block runs and crash state is untouched; score and speed never drop |
| GameLoop.FrameRunsGameplay | game.js:1684-1770 | outside a crash, a frame is the tutorial block followed by the gameplay step on its result |
| GameLoop.FrameKeepsInv | game.js:1684-1770 | every frame keeps the round invariant: score = 100 × streak, speed >= 1, time > 0, player in bounds, countdown in [0, 20], crash time in (0, 2] only while crashing, live rings uncollected |
| GameLoop.NoObstaclesDuringTutorial | game.js:1362-1366 | no obstacle is ever created before 23 s have passed since the round started |
| GameLoop.QuietFrame | game.js:1684-1770 | a frame without input or spawns keeps a quiet round quiet and ends the tutorial exactly at elapsed >= 23 s |
| GameLoop.QuietFrames | game.js:1684-1770 | a run of quiet frames stays quiet, and the tutorial is over once any of them comes at 23 s or later |
| GameLoop.TutorialEndsOnce | game.js:1735-1747 | a round played past 23 s with no input or spawns ends with tutorial off, speed exactly 1.15, multiplier 1.2, score 0 and no crash |
| GameLoop.LateCallbacksInert | game.js:1369-1374 | after the round ends, a late frame, a late clock tick (which cancels itself) and a late crash frame all leave the state alone |

## Findings

| source | as written | input that shows it | evidently intended | confidence | as-written member | corrected member |
|---|---|---|---|---|---|---|
| game.js:1596-1653 | `gameOver` zeroes `score` and then writes `this.score` to the final-score display | any round that scored, e.g. 500 | show the score the round ended with | high, not executed | Round.GameOverAsWritten, Round.FinalScoreAlwaysZeroAsWritten | Round.GameOver |
| game.js:1336-1359 | `forEach` with `splice` inside the callback skips the entry after a removed one; that entry is neither advanced nor collision-checked that frame | obstacles at z = 5 and z = -50, speed 1: the second stays at -50 | every live obstacle advances and is checked once per frame | medium, not executed | EntityPass.ObstacleForEachAsWritten, EntityPass.ForEachSpliceSkipsSuccessor | EntityPass.ObstacleSweep, EntityPass.ObstacleSweepIsReference |
| game.js:1271-1287 | the ring `forEach` removes a collected ring with `splice` in `collectRing` (game.js:1299), which skips the ring after it that frame | rings at z = -1 and z = -50, player at the origin, speed 1: the first is collected and the second stays at -50 | every live ring advances, at the running speed, and is checked once per frame | medium, not executed | EntityPass.RingForEachAsWritten, EntityPass.RingForEachSkipsSuccessor | EntityPass.RingSweep, EntityPass.RingSweepIsReference |

For the ring loop, the rest of the model uses the corrected sweep
`EntityPass.RingSweep`, which visits each ring once.
`Entities.CollectableRingNotRetired` shows that the `indexOf` = -1 removal in
`RingForEachAsWritten` cannot happen while the player is at z = 0.

## Left out

- Rendering, camera, textures, sky, and ring and obstacle mesh construction
  (game.js:541-672, 982-1076). Only spawned positions and obstacle kinds are
  kept. Building width and depth draws only shape the mesh.
- GLTF loading and UV regeneration (game.js:676-870). The model assumes the
  player mesh is loaded. In the source, a ring that spawns before the load
  completes would make `updateRings` read a null mesh.
- Audio and background music (game.js:112-394, 950-980), including the music
  stop and explosion sound on an obstacle hit.
- DOM wiring, screen switching, the HUD, quips and the tutorial display
  (game.js:396-474, 1316-1326, 1658-1682). Steering enters as a parameter.
- Player rotation, the headbang sine term, head spin and jaw animation
  (game.js:1245-1261, 894-948). They are visual only. The headbang latch and
  its start time are kept.
- Crash and afterburner particles, and the mesh fall and spin during a crash
  (game.js:1397-1474, 1480-1510, 1520-1589). They are visual only.
- The ground texture scroll (game.js:1330-1333). It is visual only.
- `noObstaclesTime` and `particles`. They are written but never read by the
  core.
- Exact IEEE-754 rounding. Reals are exact. For example, the clock's repeated
  0.1 subtraction may take one tick more or fewer in doubles than the 600 ticks
  proved here.
- The host scheduling of the interval, frame and crash callbacks. They are
  independent step functions. One more interval from a previous round could
  still be pending if a restart came within 100 ms of a game over; that
  interleaving is not modelled.
- Kinematics.UpdateControls: the code uses fixed [-4, 4] × [-0.4, 3.5]
  clamps and the raw pointer value, with no viewport-derived bounds and no
  dead zone; the model does the same.
- Entities.SpawnedObstacle: the obstacle collision radius is a fixed 1.2;
  the code has no distance-based obstacle scaling, and neither does the model.
- Crash.CrashFrame and Clock.ClockTick end the round through the corrected
  `Round.GameOver`, so they show the score the round ended with. The source's
  `animateCrash` (game.js:1514) and the interval (game.js:1378) call `gameOver`
  as written, which always shows 0 (see "## Findings"). Everything else they
  do is the same in both versions (`Round.GameOver`'s contract).
- One `Date.now()` per frame. The source reads the clock separately for the
  tutorial check (game.js:1689), the countdown start and value (game.js:1702,
  1723), the headbang start (game.js:1760) and the obstacle spawn gate
  (game.js:1363). The model reads one `now` per frame. So in the source a frame
  that straddles 23 s can spawn an obstacle while `tutorialMode` is still true;
  in the model it cannot (`GameLoop.NoObstaclesDuringTutorial`).
- The `head.glb` load completion. Every `startGame` calls `createGav`
  (game.js:535), and its asynchronous load callback clears `isCrashing` and
  `crashTime` (game.js:853-855). In the source a load that completes during a
  crash cancels it; the model has no such step.
- GameLoop.Frame: the frame does not model the afterburner particle update,
  the HUD refresh, the render, or the `requestAnimationFrame` re-scheduling
  (game.js:1772-1780).

=== FILE: clock.dfy ===
/** The depletion clock: the 100 ms `setInterval` callback started by
    `startTimeCountdown`. */
module Clock {
  import opened Kinematics
  import opened Round

  const TickSeconds: real := 0.1

  /** What one callback leaves: the state, and whether the interval keeps
      running (false once it has cleared itself). */
  datatype Tick = Tick(state: RoundState, running: bool)

  /** One callback. Outside play it changes nothing and cancels itself;
      otherwise it takes 0.1 s off the clock and ends the round exactly when
      the clock reaches zero or below. */
  function ClockTick(s: RoundState): (r: Tick)
    ensures s.phase != Playing ==> r.state == s && !r.running
    ensures r.running <==> r.state.phase == Playing
    ensures s.phase == Playing ==>
      (r.state.phase == Finished <==> s.stats.timeLeft - TickSeconds <= 0.0)
    ensures s.phase == Playing && r.running ==>
      r.state.stats == s.stats.(timeLeft := s.stats.timeLeft - TickSeconds)
      && r.state.(stats := s.stats) == s
    ensures s.phase == Playing && !r.running ==> RoundReset(r.state)
    // the ending tick is `gameOver`: the player back at rest and the round's
    // score on the game-over screen
    ensures s.phase == Playing && !r.running ==>
      r.state.player == AtRest && r.state.finalScoreShown == s.stats.score
    ensures Inv(s) ==> Inv(r.state)
  {
    if s.phase != Playing then Tick(s, false)
    else
      var s1 := s.(stats := s.stats.(timeLeft := s.stats.timeLeft - TickSeconds));
      if s1.stats.timeLeft <= 0.0 then Tick(GameOver(s1), false)
      else Tick(s1, true)
  }

  /** `n` callbacks in a row with no frame in between. */
  function Ticks(s: RoundState, n: nat): (r: RoundState)
  {
    if n == 0 then s else ClockTick(Ticks(s, n - 1)).state
  }

  /** While the clock stays positive every tick just removes 0.1 s. */
  lemma {:induction false} ClockRunsDown(s: RoundState, n: nat)
    requires s.phase == Playing
    requires s.stats.timeLeft - TickSeconds * n as real > 0.0
    ensures Ticks(s, n) == s.(stats := s.stats.(timeLeft := s.stats.timeLeft - TickSeconds * n as real))
  {
    if n > 0 {
      ClockRunsDown(s, n - 1);
    }
  }

  /** A full 60 s round with no pickups lasts exactly 600 ticks: the round is
      still on after 599 and over after the 600th. */
  lemma FullRoundIs600Ticks(s: RoundState)
    requires s.phase == Playing && s.stats.timeLeft == RoundSeconds
    ensures Ticks(s, 599).phase == Playing
    ensures Ticks(s, 600).phase == Finished
  {
    ClockRunsDown(s, 599);
  }

  /** Once the round has left play, every stray callback is a no-op. */
  lemma {:induction false} StrayTicksInert(s: RoundState, n: nat)
    requires s.phase != Playing
    ensures Ticks(s, n) == s
  {
    if n > 0 {
      StrayTicksInert(s, n - 1);
    }
  }
}

=== FILE: crash.dfy ===
/** The crash sequencer: `startCrashAnimation` and the per-frame
    `animateCrash` callback, reduced to the crash flag and crash time. */
module Crash {
  import opened Kinematics
  import opened Round

  /** Crash time added per `animateCrash` frame (a nominal 60 fps step). */
  const CrashStep: real := 0.016

  /** One `animateCrash` frame. A frame with no crash in progress does
      nothing; otherwise crash time advances by one step and the round ends
      on the first frame that takes it past the crash duration. */
  function CrashFrame(s: RoundState): (r: RoundState)
    ensures !s.crash.isCrashing ==> r == s
    ensures s.crash.isCrashing && s.phase == Playing ==>
      (r.phase == Finished <==> s.crash.crashTime + CrashStep > CrashDuration)
    ensures s.crash.isCrashing && s.crash.crashTime + CrashStep <= CrashDuration ==>
      r.crash.isCrashing && r.crash.crashTime - s.crash.crashTime == CrashStep && r.(crash := s.crash) == s
    ensures s.crash.isCrashing && s.crash.crashTime + CrashStep > CrashDuration ==>
      !r.crash.isCrashing && RoundReset(r)
    // the ending frame is `gameOver`: the player back at rest and the
    // round's score on the game-over screen
    ensures s.crash.isCrashing && s.crash.crashTime + CrashStep > CrashDuration ==>
      r.phase == Finished && r.player == AtRest && r.finalScoreShown == s.stats.score
    ensures Inv(s) ==> Inv(r)
  {
    if !s.crash.isCrashing then s
    else
      var t := s.crash.crashTime + CrashStep;
      if t > CrashDuration then GameOver(s.(crash := s.crash.(crashTime := t)))
      else s.(crash := s.crash.(crashTime := t))
  }

  /** `startCrashAnimation`: the first collision arms the sequencer and runs
      its first frame at once; while a crash is in progress it does nothing,
      so crash time is never restarted. */
  function StartCrash(c: CrashState): (r: CrashState)
    ensures c.isCrashing ==> r == c
    ensures r.isCrashing
    ensures !c.isCrashing ==> r.crashTime == CrashStep
    ensures CrashInv(c) ==> CrashInv(r)
  {
    if c.isCrashing then c
    else CrashState(true, CrashStep)
  }

  /** Starting a crash is arming the sequencer at crash time 0 and running
      one crash frame, which never ends the round. */
  lemma StartCrashRunsFirstFrame(s: RoundState)
    requires !s.crash.isCrashing
    ensures s.(crash := StartCrash(s.crash)) == CrashFrame(s.(crash := CrashState(true, 0.0)))
  {
  }

  /** Triggering again is a no-op: the crash is idempotent. */
  lemma StartCrashIdempotent(c: CrashState)
    ensures StartCrash(StartCrash(c)) == StartCrash(c)
  {
  }

  /** `n` consecutive crash frames with nothing in between. */
  function CrashFrames(s: RoundState, n: nat): (r: RoundState)
  {
    if n == 0 then s else CrashFrame(CrashFrames(s, n - 1))
  }

  /** From an armed crash at time 0, the first 125 frames only advance crash
      time by 0.016 each and keep the round going. */
  lemma {:induction false} CrashKeepsGoing(s: RoundState, n: nat)
    requires s.crash == CrashState(true, 0.0)
    requires n <= 125
    ensures CrashFrames(s, n) == s.(crash := CrashState(true, CrashStep * n as real))
  {
    if n > 0 {
      CrashKeepsGoing(s, n - 1);
    }
  }

  /** ... and the 126th frame ends the round: game over fires on the first
      frame whose crash time exceeds 2.0 and never before. */
  lemma CrashEndsOn126thFrame(s: RoundState)
    requires s.crash == CrashState(true, 0.0)
    ensures forall n: nat :: n <= 125 ==> CrashFrames(s, n).phase == s.phase
    ensures CrashFrames(s, 126).phase == Finished
    ensures !CrashFrames(s, 126).crash.isCrashing
  {
    forall n: nat | n <= 125
      ensures CrashFrames(s, n).phase == s.phase
    {
      CrashKeepsGoing(s, n);
    }
    CrashKeepsGoing(s, 125);
  }
}

=== FILE: entities.dfy ===
/** Rings and obstacles: what the spawner creates from its random draws, how
    entities advance, and the collision and retirement tests. */
module Entities {
  import opened Geometry
  import Kinematics

  /** A collectible ring: its position and the one-shot `collected` flag.
      Every ring carries the same time reward, `RingTimeValue`. */
  datatype Ring = Ring(pos: Vec3, collected: bool)

  /** The closed set of obstacle archetypes; they differ only in placement. */
  datatype ObstacleKind = Building | Tree

  datatype Obstacle = Obstacle(pos: Vec3, kind: ObstacleKind)

  const RingTimeValue: real := 5.0
  const RingScore: int := 100
  /** Speed gained per collected ring. */
  const RingSpeedBonus: real := 0.01
  /** Ring collision radius 2.5, squared. */
  const RingReachSq: real := 6.25
  /** Obstacle collision radius 1.2, squared. */
  const ObstacleReachSq: real := 1.44
  /** Entities whose z exceeds this are behind the camera and retired. */
  const RetireZ: real := 5.0
  /** Per-frame spawn probability is `SpawnRate * speed`. */
  const SpawnRate: real := 0.005

  predicate InRingReach(player: Vec3, p: Vec3) {
    DistSq(player, p) < RingReachSq
  }

  predicate InObstacleReach(player: Vec3, p: Vec3) {
    DistSq(player, p) < ObstacleReachSq
  }

  predicate Retired(p: Vec3) {
    p.z > RetireZ
  }

  function MoveZ(p: Vec3, dz: real): (r: Vec3)
    ensures r.x == p.x && r.y == p.y
    ensures r.z - p.z == dz
  {
    p.(z := p.z + dz)
  }

  /** A value returned by `Math.random()`. */
  predicate UnitDraw(u: real) {
    0.0 <= u < 1.0
  }

  /** The draws `updateRings` and `addRing` consume in one frame: the spawn
      roll and the three placement draws. */
  datatype RingDraw = RingDraw(roll: real, ux: real, uy: real, uz: real)

  predicate ValidRingDraw(d: RingDraw) {
    UnitDraw(d.roll) && UnitDraw(d.ux) && UnitDraw(d.uy) && UnitDraw(d.uz)
  }

  /** The ring `addRing` places: lateral in [-4, 4), always above the ground
      at y in [1, 4), far ahead at z in (-130, -100]. */
  function SpawnedRing(d: RingDraw): (r: Ring)
    ensures !r.collected
    ensures ValidRingDraw(d) ==>
      && -4.0 <= r.pos.x < 4.0
      && 1.0 <= r.pos.y < 4.0
      && -130.0 < r.pos.z <= -100.0
  {
    Ring(Vec3((d.ux - 0.5) * 8.0, d.uy * 3.0 + 1.0, -d.uz * 30.0 - 100.0), false)
  }

  /** The draws `updateTerrain` and `addObstacle` consume: the spawn roll, the
      archetype draw, the building-height draw and the placement draws. The
      remaining draws of `addObstacle` only shape the mesh. */
  datatype ObstacleDraw = ObstacleDraw(roll: real, ukind: real, uheight: real, ux: real, uz: real)

  predicate ValidObstacleDraw(d: ObstacleDraw) {
    UnitDraw(d.roll) && UnitDraw(d.ukind) && UnitDraw(d.uheight) && UnitDraw(d.ux) && UnitDraw(d.uz)
  }

  /** The obstacle `addObstacle` places. A building of height h in [2, 6) is
      centred so that its base is on the ground (y = -2 + h/2); a tree group has
      its origin on the ground itself. */
  function SpawnedObstacle(d: ObstacleDraw): (r: Obstacle)
    ensures r.kind == Building <==> d.ukind < 0.6
    ensures r.kind == Tree ==> r.pos.y == Kinematics.GroundY
    ensures ValidObstacleDraw(d) ==>
      && -6.0 <= r.pos.x < 6.0
      && -140.0 < r.pos.z <= -100.0
      && (r.kind == Building ==> -1.0 <= r.pos.y < 1.0)
  {
    var x := (d.ux - 0.5) * 12.0;
    var z := -d.uz * 40.0 - 100.0;
    if d.ukind < 0.6 then
      var height := d.uheight * 4.0 + 2.0;
      Obstacle(Vec3(x, Kinematics.GroundY + height / 2.0, z), Building)
    else
      Obstacle(Vec3(x, Kinematics.GroundY, z), Tree)
  }

  /** An obstacle whose origin sits on the ground, as every tree's does, is
      never within 1.2 of a player kept at y >= -0.4: the vertical gap alone
      is at least 1.6. */
  lemma GroundedObstacleOutOfReach(player: Vec3, p: Vec3)
    requires Kinematics.MinY <= player.y
    requires p.y == Kinematics.GroundY
    ensures !InObstacleReach(player, p)
  {
    var dy := player.y - p.y;
    assert dy >= 1.6;
    assert dy * dy >= 1.6 * dy >= 1.6 * 1.6;
    assert DistSq(player, p) >= dy * dy;
  }

  /** So no tree, wherever it is spawned or has moved to, can ever hit the player. */
  lemma TreesNeverHit(player: Vec3, d: ObstacleDraw, dz: real)
    requires Kinematics.MinY <= player.y
    requires SpawnedObstacle(d).kind == Tree
    ensures !InObstacleReach(player, MoveZ(SpawnedObstacle(d).pos, dz))
  {
    GroundedObstacleOutOfReach(player, MoveZ(SpawnedObstacle(d).pos, dz));
  }

  /** A ring close enough to be collected by a player on the lane (z = 0) is
      never also past the retirement plane, so the source's collect-then-retire
      double removal cannot act on the same ring. */
  lemma CollectableRingNotRetired(player: Vec3, p: Vec3)
    requires player.z == 0.0
    requires InRingReach(player, p)
    ensures !Retired(p)
  {
    var dz := p.z - player.z;
    SquareAbove(dz, RetireZ);
    assert DistSq(player, p) >= dz * dz;
  }
}

=== FILE: entity_pass.dfy ===
/** `updateRings` and `updateTerrain`: entity advance, collision, retirement
    and spawning for one frame.

    The source walks each list with `forEach` and removes entries with
    `splice` inside the callback. Removing the current entry shifts the next
    one into the visited slot, so that entry is skipped (neither advanced nor
    collision-checked) for that frame. The main model below processes every
    entry, i.e. removal acts as a filter; `ObstacleForEachAsWritten` and
    `RingForEachAsWritten` model the skipping loops themselves for comparison. */
module EntityPass {
  import opened Geometry
  import opened Entities
  import opened Round
  import opened Crash
  import opened Tutorial

  /** The effect of `collectRing` on the round: +100 score, +5 s, +1 streak
      and +0.01 speed (the ring itself is dropped by the caller). */
  function CollectRing(st: Stats): (r: Stats)
    ensures r.score - st.score == RingScore && r.streak - st.streak == 1
    ensures r.timeLeft - st.timeLeft == RingTimeValue && r.speed - st.speed == RingSpeedBonus
    ensures StatsInv(st) ==> StatsInv(r)
  {
    Stats(st.score + RingScore, st.timeLeft + RingTimeValue, st.streak + 1, st.speed + RingSpeedBonus)
  }

  /** What the ring sweep leaves: the updated stats and the kept rings. */
  datatype RingPass = RingPass(stats: Stats, kept: seq<Ring>)

  /** The `forEach` of `updateRings`. `kept` holds the rings kept so far this
      frame and `todo` those not yet visited. Each ring advances by the
      current speed, which earlier collections in the same frame may already
      have raised; an uncollected ring within reach is collected and dropped;
      a ring past the camera is retired; any other ring is kept. */
  function RingSweep(player: Vec3, st: Stats, kept: seq<Ring>, todo: seq<Ring>): (r: RingPass)
    ensures var n := r.stats.streak - st.streak;
      && 0 <= n <= |todo|
      && r.stats.score == st.score + RingScore * n
      && r.stats.timeLeft == st.timeLeft + RingTimeValue * n as real
      && r.stats.speed == st.speed + RingSpeedBonus * n as real
      && |kept| <= |r.kept| <= |kept| + |todo| - n
    ensures r.kept[..|kept|] == kept
    ensures forall i :: |kept| <= i < |r.kept| ==>
      !Retired(r.kept[i].pos) && (r.kept[i].collected || !InRingReach(player, r.kept[i].pos))
    ensures LiveRings(kept) && LiveRings(todo) ==> LiveRings(r.kept)
    decreases |todo|
  {
    if todo == [] then RingPass(st, kept)
    else
      var ring := todo[0].(pos := MoveZ(todo[0].pos, st.speed));
      if !ring.collected && InRingReach(player, ring.pos) then
        RingSweep(player, CollectRing(st), kept, todo[1..])
      else if Retired(ring.pos) then
        RingSweep(player, st, kept, todo[1..])
      else
        RingSweep(player, st, kept + [ring], todo[1..])
  }

  /** A ring already marked collected never scores again: with only such
      rings to visit the sweep collects nothing. */
  lemma {:induction false} CollectedRingsNeverScore(player: Vec3, st: Stats, kept: seq<Ring>, todo: seq<Ring>)
    requires forall i :: 0 <= i < |todo| ==> todo[i].collected
    ensures RingSweep(player, st, kept, todo).stats == st
    decreases |todo|
  {
    if todo != [] {
      var ring := todo[0].(pos := MoveZ(todo[0].pos, st.speed));
      CollectedRingsNeverScore(player, st, if Retired(ring.pos) then kept else kept + [ring], todo[1..]);
    }
  }

  /** An uncollected ring within reach of the player: the sweep collects it. */
  predicate Collectable(player: Vec3, ring: Ring) {
    !ring.collected && InRingReach(player, ring.pos)
  }

  /** How many of `rings` are collectable. */
  function CountCollectable(player: Vec3, rings: seq<Ring>): (r: nat)
    ensures r <= |rings|
  {
    if rings == [] then 0
    else (if Collectable(player, rings[0]) then 1 else 0) + CountCollectable(player, rings[1..])
  }

  /** The rings of `rings` that are neither collectable nor retired, in order. */
  function KeptRings(player: Vec3, rings: seq<Ring>): (r: seq<Ring>)
  {
    if rings == [] then []
    else (if Collectable(player, rings[0]) || Retired(rings[0].pos) then [] else [rings[0]])
         + KeptRings(player, rings[1..])
  }

  /** Every ring advanced by the speed in effect when it is visited: `speed`
      plus the bonus of each collectable ring visited before it. */
  function AdvanceRings(player: Vec3, speed: real, todo: seq<Ring>): (r: seq<Ring>)
    ensures |r| == |todo|
    decreases |todo|
  {
    if todo == [] then []
    else
      var ring := todo[0].(pos := MoveZ(todo[0].pos, speed));
      [ring] + AdvanceRings(player, if Collectable(player, ring) then speed + RingSpeedBonus else speed, todo[1..])
  }

  /** The speed ring `i` advances by is the frame's starting speed plus 0.01
      for each ring collected before it in the same sweep. */
  lemma {:induction false} AdvanceAt(player: Vec3, speed: real, todo: seq<Ring>, i: nat)
    requires i < |todo|
    ensures var r := AdvanceRings(player, speed, todo);
      r[i] == todo[i].(pos := MoveZ(todo[i].pos, speed + RingSpeedBonus * CountCollectable(player, r[..i]) as real))
    decreases i
  {
    var r := AdvanceRings(player, speed, todo);
    var ring := todo[0].(pos := MoveZ(todo[0].pos, speed));
    var speed1 := if Collectable(player, ring) then speed + RingSpeedBonus else speed;
    var rest := AdvanceRings(player, speed1, todo[1..]);
    assert r == [ring] + rest;
    if i == 0 {
      assert r[..0] == [];
    } else {
      AdvanceAt(player, speed1, todo[1..], i - 1);
      var pre := r[..i];
      assert pre[0] == ring && pre[1..] == rest[..i - 1];
      assert r[i] == rest[i - 1] && todo[i] == todo[1..][i - 1];
    }
  }

  /** So every ring advances at the running speed of the sweep. */
  lemma AdvanceUsesRunningSpeed(player: Vec3, speed: real, todo: seq<Ring>)
    ensures var r := AdvanceRings(player, speed, todo);
      forall i :: 0 <= i < |todo| ==>
        r[i] == todo[i].(pos := MoveZ(todo[i].pos, speed + RingSpeedBonus * CountCollectable(player, r[..i]) as real))
  {
    forall i | 0 <= i < |todo|
      ensures var r := AdvanceRings(player, speed, todo);
        r[i] == todo[i].(pos := MoveZ(todo[i].pos, speed + RingSpeedBonus * CountCollectable(player, r[..i]) as real))
    {
      AdvanceAt(player, speed, todo, i);
    }
  }

  /** The stats after `n` ring pickups. */
  function CollectMany(st: Stats, n: nat): (r: Stats)
    ensures r.streak - st.streak == n && r.score - st.score == RingScore * n
    ensures r.timeLeft - st.timeLeft == RingTimeValue * n as real
    ensures r.speed - st.speed == RingSpeedBonus * n as real
  {
    Stats(st.score + RingScore * n, st.timeLeft + RingTimeValue * n as real,
          st.streak + n, st.speed + RingSpeedBonus * n as real)
  }

  /** The reference description peeled at the first ring. */
  lemma AdvanceHead(player: Vec3, speed: real, todo: seq<Ring>)
    requires todo != []
    ensures var ring := todo[0].(pos := MoveZ(todo[0].pos, speed));
      var moved := AdvanceRings(player, speed, todo);
      var rest := AdvanceRings(player, if Collectable(player, ring) then speed + RingSpeedBonus else speed, todo[1..]);
      && CountCollectable(player, moved) == (if Collectable(player, ring) then 1 else 0) + CountCollectable(player, rest)
      && KeptRings(player, moved) == (if Collectable(player, ring) || Retired(ring.pos) then [] else [ring]) + KeptRings(player, rest)
  {
    var ring := todo[0].(pos := MoveZ(todo[0].pos, speed));
    var moved := AdvanceRings(player, speed, todo);
    assert moved[0] == ring;
    assert moved[1..] == AdvanceRings(player, if Collectable(player, ring) then speed + RingSpeedBonus else speed, todo[1..]);
  }

  /** One pickup followed by n more is n + 1 pickups. */
  lemma CollectOneMore(st: Stats, n: nat, m: nat)
    requires m == n + 1
    ensures CollectMany(CollectRing(st), n) == CollectMany(st, m)
  {
  }

  /** Keeping one ring now and the rest later is keeping them all. */
  lemma AppendAssoc(kept: seq<Ring>, head: seq<Ring>, rest: seq<Ring>)
    ensures kept + head + rest == kept + (head + rest)
  {
  }

  /** The sequential ring sweep equals the reference description: advance
      each ring at the running speed, collect exactly the collectable ones
      (each adding the `collectRing` bonus), keep the others that are not
      past the camera, in order. */
  lemma {:induction false} RingSweepIsReference(player: Vec3, st: Stats, kept: seq<Ring>, todo: seq<Ring>)
    ensures var moved := AdvanceRings(player, st.speed, todo);
      RingSweep(player, st, kept, todo).stats == CollectMany(st, CountCollectable(player, moved))
    ensures var moved := AdvanceRings(player, st.speed, todo);
      RingSweep(player, st, kept, todo).kept == kept + KeptRings(player, moved)
    decreases |todo|, 1
  {
    if todo == [] {
      assert kept + [] == kept;
    } else {
      var ring := todo[0].(pos := MoveZ(todo[0].pos, st.speed));
      if Collectable(player, ring) {
        CollectStep(player, st, kept, todo);
      } else if Retired(ring.pos) {
        RetireStep(player, st, kept, todo);
      } else {
        KeepStep(player, st, kept, todo);
      }
    }
  }

  /** The inductive step of `RingSweepIsReference` for a collected ring. */
  lemma {:induction false} CollectStep(player: Vec3, st: Stats, kept: seq<Ring>, todo: seq<Ring>)
    requires todo != [] && Collectable(player, todo[0].(pos := MoveZ(todo[0].pos, st.speed)))
    ensures var moved := AdvanceRings(player, st.speed, todo);
      RingSweep(player, st, kept, todo).stats == CollectMany(st, CountCollectable(player, moved))
    ensures var moved := AdvanceRings(player, st.speed, todo);
      RingSweep(player, st, kept, todo).kept == kept + KeptRings(player, moved)
    decreases |todo|, 0
  {
    var rest := AdvanceRings(player, st.speed + RingSpeedBonus, todo[1..]);
    AdvanceHead(player, st.speed, todo);
    RingSweepIsReference(player, CollectRing(st), kept, todo[1..]);
    CollectOneMore(st, CountCollectable(player, rest), CountCollectable(player, AdvanceRings(player, st.speed, todo)));
  }

  /** The inductive step of `RingSweepIsReference` for a retired ring. */
  lemma {:induction false} RetireStep(player: Vec3, st: Stats, kept: seq<Ring>, todo: seq<Ring>)
    requires todo != []
    requires var ring := todo[0].(pos := MoveZ(todo[0].pos, st.speed));
      !Collectable(player, ring) && Retired(ring.pos)
    ensures var moved := AdvanceRings(player, st.speed, todo);
      RingSweep(player, st, kept, todo).stats == CollectMany(st, CountCollectable(player, moved))
    ensures var moved := AdvanceRings(player, st.speed, todo);
      RingSweep(player, st, kept, todo).kept == kept + KeptRings(player, moved)
    decreases |todo|, 0
  {
    AdvanceHead(player, st.speed, todo);
    RingSweepIsReference(player, st, kept, todo[1..]);
  }

  /** The inductive step of `RingSweepIsReference` for a kept ring. */
  lemma {:induction false} KeepStep(player: Vec3, st: Stats, kept: seq<Ring>, todo: seq<Ring>)
    requires todo != []
    requires var ring := todo[0].(pos := MoveZ(todo[0].pos, st.speed));
      !Collectable(player, ring) && !Retired(ring.pos)
    ensures var moved := AdvanceRings(player, st.speed, todo);
      RingSweep(player, st, kept, todo).stats == CollectMany(st, CountCollectable(player, moved))
    ensures var moved := AdvanceRings(player, st.speed, todo);
      RingSweep(player, st, kept, todo).kept == kept + KeptRings(player, moved)
    decreases |todo|, 0
  {
    var ring := todo[0].(pos := MoveZ(todo[0].pos, st.speed));
    var rest := AdvanceRings(player, st.speed, todo[1..]);
    AdvanceHead(player, st.speed, todo);
    RingSweepIsReference(player, st, kept + [ring], todo[1..]);
    AppendAssoc(kept, [ring], KeptRings(player, rest));
  }

  /** KeptRings keeps exactly the rings that are neither collectable nor
      past the camera. */
  lemma {:induction false} KeptRingsAreTheUncollectable(player: Vec3, rings: seq<Ring>)
    ensures forall ring :: ring in KeptRings(player, rings) <==>
      ring in rings && !Collectable(player, ring) && !Retired(ring.pos)
  {
    if rings != [] {
      KeptRingsAreTheUncollectable(player, rings[1..]);
      assert rings == [rings[0]] + rings[1..];
    }
  }

  /** One call of `updateRings`: the sweep, then the spawn roll, which uses
      the speed after this frame's collections and is not gated by the
      tutorial. */
  function UpdateRings(s: RoundState, d: RingDraw): (r: RoundState)
    // exactly the collectable rings score, each as one `collectRing`; the
    // others not past the camera stay, and a new ring joins the end on a
    // successful spawn roll
    ensures var moved := AdvanceRings(s.player.pos, s.stats.speed, s.rings);
      && r.stats == CollectMany(s.stats, CountCollectable(s.player.pos, moved))
      && r.rings == KeptRings(s.player.pos, moved) + (if d.roll < SpawnRate * r.stats.speed then [SpawnedRing(d)] else [])
    ensures r.(stats := s.stats, rings := s.rings) == s
    ensures Inv(s) && s.phase == Playing ==> Inv(r)
  {
    var pass := RingSweep(s.player.pos, s.stats, [], s.rings);
    RingSweepIsReference(s.player.pos, s.stats, [], s.rings);
    assert [] + KeptRings(s.player.pos, AdvanceRings(s.player.pos, s.stats.speed, s.rings))
        == KeptRings(s.player.pos, AdvanceRings(s.player.pos, s.stats.speed, s.rings));
    var rings := if d.roll < SpawnRate * pass.stats.speed then pass.kept + [SpawnedRing(d)] else pass.kept;
    s.(stats := pass.stats, rings := rings)
  }

  /** A ring that lands on the player this frame is collected exactly once
      and is gone from the live list at the end of the frame. */
  lemma RingAtPlayerCollected(s: RoundState, ring: Ring, d: RingDraw)
    requires s.rings == [ring] && !ring.collected
    requires MoveZ(ring.pos, s.stats.speed) == s.player.pos
    requires !(d.roll < SpawnRate * (s.stats.speed + RingSpeedBonus))
    ensures UpdateRings(s, d).stats == CollectRing(s.stats)
    ensures UpdateRings(s, d).rings == []
  {
    assert DistSq(s.player.pos, MoveZ(ring.pos, s.stats.speed)) == 0.0;
  }

  /** Every obstacle advanced by `dz`. */
  function MoveAll(obs: seq<Obstacle>, dz: real): (r: seq<Obstacle>)
    ensures |r| == |obs|
    ensures forall i :: 0 <= i < |obs| ==> r[i] == obs[i].(pos := MoveZ(obs[i].pos, dz))
  {
    if obs == [] then []
    else [obs[0].(pos := MoveZ(obs[0].pos, dz))] + MoveAll(obs[1..], dz)
  }

  /** The obstacles not yet past the camera, in order. */
  function Survivors(obs: seq<Obstacle>): (r: seq<Obstacle>)
    ensures |r| <= |obs|
  {
    if obs == [] then []
    else if Retired(obs[0].pos) then Survivors(obs[1..])
    else [obs[0]] + Survivors(obs[1..])
  }

  /** Whether any obstacle is within collision reach of the player. */
  function AnyHit(player: Vec3, obs: seq<Obstacle>): (r: bool)
  {
    if obs == [] then false
    else InObstacleReach(player, obs[0].pos) || AnyHit(player, obs[1..])
  }

  /** Survivors keeps exactly the obstacles not past the camera. */
  lemma {:induction false} SurvivorsAreUnretired(obs: seq<Obstacle>)
    ensures forall o :: o in Survivors(obs) <==> o in obs && !Retired(o.pos)
  {
    if obs != [] {
      SurvivorsAreUnretired(obs[1..]);
      assert obs == [obs[0]] + obs[1..];
    }
  }

  /** AnyHit holds exactly when some obstacle is within reach. */
  lemma {:induction false} AnyHitMeansSomeInReach(player: Vec3, obs: seq<Obstacle>)
    ensures AnyHit(player, obs) <==> exists i :: 0 <= i < |obs| && InObstacleReach(player, obs[i].pos)
  {
    if obs != [] {
      AnyHitMeansSomeInReach(player, obs[1..]);
      if AnyHit(player, obs[1..]) {
        var i :| 0 <= i < |obs[1..]| && InObstacleReach(player, obs[1..][i].pos);
        assert obs[i + 1] == obs[1..][i];
      }
      if exists i :: 0 <= i < |obs| && InObstacleReach(player, obs[i].pos) {
        var i :| 0 <= i < |obs| && InObstacleReach(player, obs[i].pos);
        if i > 0 {
          assert obs[1..][i - 1] == obs[i];
        }
      }
    }
  }

  /** What the obstacle sweep leaves: the crash state and the kept obstacles. */
  datatype ObstaclePass = ObstaclePass(crash: CrashState, kept: seq<Obstacle>)

  /** The `forEach` of `updateTerrain`. Each obstacle advances by `dz` (speed
      times the obstacle multiplier, fixed for the frame), a hit starts the
      crash (a no-op once one is in progress), and an obstacle past the camera
      is retired after its collision check. */
  function ObstacleSweep(player: Vec3, dz: real, c: CrashState, kept: seq<Obstacle>, todo: seq<Obstacle>): (r: ObstaclePass)
    ensures |kept| <= |r.kept| <= |kept| + |todo|
    ensures c.isCrashing ==> r.crash == c
    decreases |todo|
  {
    if todo == [] then ObstaclePass(c, kept)
    else
      var o := todo[0].(pos := MoveZ(todo[0].pos, dz));
      var c1 := if InObstacleReach(player, o.pos) then StartCrash(c) else c;
      var kept1 := if Retired(o.pos) then kept else kept + [o];
      ObstacleSweep(player, dz, c1, kept1, todo[1..])
  }

  /** The reference description peeled at the first obstacle. */
  lemma MovedHead(player: Vec3, todo: seq<Obstacle>, dz: real)
    requires todo != []
    ensures var o := todo[0].(pos := MoveZ(todo[0].pos, dz));
      var moved := MoveAll(todo, dz);
      && Survivors(moved) == (if Retired(o.pos) then [] else [o]) + Survivors(MoveAll(todo[1..], dz))
      && (AnyHit(player, moved) <==> InObstacleReach(player, o.pos) || AnyHit(player, MoveAll(todo[1..], dz)))
  {
    var moved := MoveAll(todo, dz);
    assert moved[1..] == MoveAll(todo[1..], dz);
  }

  /** Arming the crash at one obstacle and then possibly again later is
      arming it iff either fired. */
  lemma CrashOnce(c: CrashState, first: bool, later: bool)
    ensures var c1 := if first then StartCrash(c) else c;
      (if later then StartCrash(c1) else c1) == (if first || later then StartCrash(c) else c)
  {
    StartCrashIdempotent(c);
  }

  /** Keeping the first survivor now and the rest later is keeping them all. */
  lemma KeptOnce(kept: seq<Obstacle>, head: seq<Obstacle>, rest: seq<Obstacle>)
    ensures kept + head + rest == kept + (head + rest)
  {
  }

  /** The sequential sweep equals the reference description: advance all,
      crash iff any advanced obstacle is in reach, keep the survivors. */
  lemma {:induction false} ObstacleSweepIsReference(player: Vec3, dz: real, c: CrashState, kept: seq<Obstacle>, todo: seq<Obstacle>)
    ensures var moved := MoveAll(todo, dz);
      ObstacleSweep(player, dz, c, kept, todo) ==
        ObstaclePass(if AnyHit(player, moved) then StartCrash(c) else c, kept + Survivors(moved))
    decreases |todo|
  {
    if todo != [] {
      var o := todo[0].(pos := MoveZ(todo[0].pos, dz));
      var c1 := if InObstacleReach(player, o.pos) then StartCrash(c) else c;
      var head := if Retired(o.pos) then [] else [o];
      var rest := MoveAll(todo[1..], dz);
      ObstacleSweepIsReference(player, dz, c1, kept + head, todo[1..]);
      MovedHead(player, todo, dz);
      CrashOnce(c, InObstacleReach(player, o.pos), AnyHit(player, rest));
      KeptOnce(kept, head, Survivors(rest));
      assert kept + head == if Retired(o.pos) then kept else kept + [o];
    }
  }

  /** Every obstacle alive after the sweep is an input obstacle advanced
      exactly once, and every input obstacle that is not retired survives. */
  lemma EveryLiveObstacleAdvancesOnce(obs: seq<Obstacle>, dz: real)
    ensures forall o :: o in Survivors(MoveAll(obs, dz)) ==>
      exists i :: 0 <= i < |obs| && o == obs[i].(pos := MoveZ(obs[i].pos, dz))
    ensures forall i :: 0 <= i < |obs| && !Retired(MoveZ(obs[i].pos, dz)) ==>
      obs[i].(pos := MoveZ(obs[i].pos, dz)) in Survivors(MoveAll(obs, dz))
  {
    var moved := MoveAll(obs, dz);
    SurvivorsAreUnretired(moved);
    forall o | o in Survivors(moved)
      ensures exists i :: 0 <= i < |obs| && o == obs[i].(pos := MoveZ(obs[i].pos, dz))
    {
      var i :| 0 <= i < |moved| && moved[i] == o;
      assert o == obs[i].(pos := MoveZ(obs[i].pos, dz));
    }
    forall i | 0 <= i < |obs| && !Retired(MoveZ(obs[i].pos, dz))
      ensures obs[i].(pos := MoveZ(obs[i].pos, dz)) in Survivors(moved)
    {
      assert moved[i] in moved;
    }
  }

  /** How far obstacles move this frame: `1.0 * speed * obstacleSpeedMultiplier`. */
  function ObstacleAdvance(s: RoundState): (r: real) {
    s.stats.speed * s.tutorial.obstacleSpeedMultiplier
  }

  /** One call of `updateTerrain`: the sweep, then the obstacle spawn, which
      is gated on 23 s having passed since the round started. */
  function UpdateTerrain(s: RoundState, now: int, d: ObstacleDraw): (r: RoundState)
    ensures var moved := MoveAll(s.obstacles, ObstacleAdvance(s));
      r.crash.isCrashing <==> s.crash.isCrashing || AnyHit(s.player.pos, moved)
    ensures var moved := MoveAll(s.obstacles, ObstacleAdvance(s));
      !s.crash.isCrashing && AnyHit(s.player.pos, moved) ==> r.crash.crashTime == CrashStep
    ensures s.crash.isCrashing ==> r.crash == s.crash
    ensures var kept := Survivors(MoveAll(s.obstacles, ObstacleAdvance(s)));
      r.obstacles ==
        if Elapsed(now, s.tutorial.tutorialStartTime) >= TutorialSeconds && d.roll < SpawnRate * s.stats.speed
        then kept + [SpawnedObstacle(d)] else kept
    ensures Elapsed(now, s.tutorial.tutorialStartTime) < TutorialSeconds ==> |r.obstacles| <= |s.obstacles|
    ensures r.(obstacles := s.obstacles, crash := s.crash) == s
    ensures CrashInv(s.crash) ==> CrashInv(r.crash)
  {
    var dz := ObstacleAdvance(s);
    ObstacleSweepIsReference(s.player.pos, dz, s.crash, [], s.obstacles);
    var pass := ObstacleSweep(s.player.pos, dz, s.crash, [], s.obstacles);
    var obstacles :=
      if Elapsed(now, s.tutorial.tutorialStartTime) >= TutorialSeconds && d.roll < SpawnRate * s.stats.speed
      then pass.kept + [SpawnedObstacle(d)] else pass.kept;
    s.(crash := pass.crash, obstacles := obstacles)
  }

  /** `forEach` + `splice` as the source writes it, on positions only:
      `forEach` visits index k while k is below both the starting length and
      the current length, and a removal at k shifts the next entry into k. */
  function ObstacleForEachAsWritten(arr: seq<Obstacle>, k: nat, len0: nat, dz: real): (r: seq<Obstacle>)
    ensures |r| <= |arr|
    decreases len0 - k
  {
    if k >= len0 || k >= |arr| then arr
    else
      var o := arr[k].(pos := MoveZ(arr[k].pos, dz));
      if Retired(o.pos) then ObstacleForEachAsWritten(arr[..k] + arr[k + 1..], k + 1, len0, dz)
      else ObstacleForEachAsWritten(arr[k := o], k + 1, len0, dz)
  }

  /** The entry after a retired one is skipped: with one obstacle about to
      pass the camera and one far ahead, the loop as written leaves the far
      one where it was, while every live obstacle should have advanced. */
  lemma ForEachSpliceSkipsSuccessor()
    ensures var a := Obstacle(Vec3(0.0, 0.0, 5.0), Building);
      var b := Obstacle(Vec3(0.0, 0.0, -50.0), Building);
      && ObstacleForEachAsWritten([a, b], 0, 2, 1.0) == [b]
      && Survivors(MoveAll([a, b], 1.0)) == [Obstacle(Vec3(0.0, 0.0, -49.0), Building)]
  {
    var a := Obstacle(Vec3(0.0, 0.0, 5.0), Building);
    var b := Obstacle(Vec3(0.0, 0.0, -50.0), Building);
    assert [a, b][..0] + [a, b][1..] == [b];
    assert ObstacleForEachAsWritten([a, b], 0, 2, 1.0) == ObstacleForEachAsWritten([b], 1, 2, 1.0);
    var moved := MoveAll([a, b], 1.0);
    assert moved == [Obstacle(Vec3(0.0, 0.0, 6.0), Building), Obstacle(Vec3(0.0, 0.0, -49.0), Building)];
    assert moved[1..][1..] == [];
  }

  /** The `forEach` of `updateRings` as the source writes it: index k is
      visited while it is below both the starting length and the current
      length. A collected ring is removed at k by `collectRing`, which shifts
      the next ring into k; a retired one is removed at k too. A ring that is
      both collected and past the camera is no longer in the list when the
      retire check runs, so its `indexOf` is -1 and `splice(-1, 1)` drops the
      last ring instead. */
  function RingForEachAsWritten(player: Vec3, st: Stats, arr: seq<Ring>, k: nat, len0: nat): (r: RingPass)
    ensures |r.kept| <= |arr|
    decreases len0 - k
  {
    if k >= len0 || k >= |arr| then RingPass(st, arr)
    else
      var ring := arr[k].(pos := MoveZ(arr[k].pos, st.speed));
      if Collectable(player, ring) then
        var removed := arr[..k] + arr[k + 1..];
        var left := if Retired(ring.pos) && removed != [] then removed[..|removed| - 1] else removed;
        RingForEachAsWritten(player, CollectRing(st), left, k + 1, len0)
      else if Retired(ring.pos) then
        RingForEachAsWritten(player, st, arr[..k] + arr[k + 1..], k + 1, len0)
      else
        RingForEachAsWritten(player, st, arr[k := ring], k + 1, len0)
  }

  /** The ring after a collected one is skipped: with a ring about to reach
      the player and one far ahead, the loop as written leaves the far ring
      where it was, while it should have advanced at the raised speed. */
  lemma RingForEachSkipsSuccessor(st: Stats)
    requires st.speed == 1.0
    ensures var a := Ring(Vec3(0.0, 0.0, -1.0), false);
      var b := Ring(Vec3(0.0, 0.0, -50.0), false);
      && RingForEachAsWritten(Origin, st, [a, b], 0, 2) == RingPass(CollectRing(st), [b])
      && RingSweep(Origin, st, [], [a, b]) == RingPass(CollectRing(st), [Ring(Vec3(0.0, 0.0, -48.99), false)])
  {
    var a := Ring(Vec3(0.0, 0.0, -1.0), false);
    var b := Ring(Vec3(0.0, 0.0, -50.0), false);
    assert Collectable(Origin, a.(pos := MoveZ(a.pos, st.speed)));
    assert [a, b][..0] + [a, b][1..] == [b];
    assert RingForEachAsWritten(Origin, st, [a, b], 0, 2) == RingForEachAsWritten(Origin, CollectRing(st), [b], 1, 2);
    assert [a, b][1..] == [b] && [b][1..] == [];
    var b1 := b.(pos := MoveZ(b.pos, CollectRing(st).speed));
    assert b1 == Ring(Vec3(0.0, 0.0, -48.99), false);
    assert !Collectable(Origin, b1) && !Retired(b1.pos);
    assert RingSweep(Origin, CollectRing(st), [], [b]) == RingSweep(Origin, CollectRing(st), [b1], []);
  }
}

=== FILE: game_loop.dfy ===
/** One `gameLoop` frame: the not-playing guard, the tutorial block, the
    crash guard, then controls, rings and obstacles in that order. The
    depletion clock (`Clock`) and the crash frames (`Crash`) are separate step
    functions that a caller interleaves with frames in any order. */
module GameLoop {
  import opened Geometry
  import opened Kinematics
  import opened Entities
  import opened Round
  import opened Crash
  import opened Tutorial
  import opened EntityPass
  import Clock

  /** What one frame reads from outside: the wall clock, the steering input
      and the random draws of the two spawners. */
  datatype FrameInput = FrameInput(now: int, steer: Steering, ringDraw: RingDraw, obstacleDraw: ObstacleDraw)

  /** What the ring stage leaves alone, for `Gameplay`'s proof. */
  lemma RingStageLeaves(s: RoundState, d: RingDraw)
    ensures var r := UpdateRings(s, d);
      && r.phase == s.phase && r.tutorial == s.tutorial && r.player == s.player
      && r.crash == s.crash && r.obstacles == s.obstacles && r.finalScoreShown == s.finalScoreShown
  {
    var r := UpdateRings(s, d);
    assert r == s.(stats := r.stats, rings := r.rings);
  }

  /** What the obstacle stage leaves alone, for `Gameplay`'s proof. */
  lemma TerrainStageLeaves(s: RoundState, now: int, d: ObstacleDraw)
    ensures var r := UpdateTerrain(s, now, d);
      && r.phase == s.phase && r.tutorial == s.tutorial && r.player == s.player
      && r.stats == s.stats && r.rings == s.rings && r.finalScoreShown == s.finalScoreShown
  {
    var r := UpdateTerrain(s, now, d);
    assert r == s.(obstacles := r.obstacles, crash := r.crash);
  }

  /** The obstacle step depends only on the speed and the multiplier. */
  lemma SameObstacleAdvance(a: RoundState, b: RoundState)
    requires a.stats == b.stats && a.tutorial == b.tutorial
    ensures ObstacleAdvance(a) == ObstacleAdvance(b)
  {
  }

  /** What the ring and obstacle stages leave alone, for `Gameplay`'s proof. */
  lemma GameplayStages(s: RoundState, moved: RoundState, inp: FrameInput)
    requires moved == s.(player := moved.player)
    ensures var collected := UpdateRings(moved, inp.ringDraw);
      var r := UpdateTerrain(collected, inp.now, inp.obstacleDraw);
      && r.phase == s.phase && r.tutorial == s.tutorial && r.player == moved.player
      && r.stats == collected.stats
      && collected.stats.score >= s.stats.score && collected.stats.speed >= s.stats.speed
      && ObstacleAdvance(r) == ObstacleAdvance(collected)
      && (r.crash.isCrashing <==>
           s.crash.isCrashing || AnyHit(moved.player.pos, MoveAll(s.obstacles, ObstacleAdvance(r))))
  {
    var collected := UpdateRings(moved, inp.ringDraw);
    RingStageLeaves(moved, inp.ringDraw);
    TerrainStageLeaves(collected, inp.now, inp.obstacleDraw);
    SameObstacleAdvance(UpdateTerrain(collected, inp.now, inp.obstacleDraw), collected);
  }

  /** The gameplay part of a frame, run only while no crash is in progress. */
  function Gameplay(s: RoundState, inp: FrameInput): (r: RoundState)
    ensures r.phase == s.phase && r.tutorial == s.tutorial
    ensures r.stats.score >= s.stats.score
    ensures r.stats.speed >= s.stats.speed
    ensures s.player.pos.z == 0.0 ==> InBounds(r.player.pos)
    // obstacles move at the speed left after this frame's ring pickups, and
    // any one of them in reach of the moved player starts (or keeps) a crash
    ensures r.crash.isCrashing <==>
      || s.crash.isCrashing
      || AnyHit(r.player.pos, MoveAll(s.obstacles, ObstacleAdvance(r)))
  {
    var moved := s.(player := UpdateControls(s.player, inp.steer));
    var collected := UpdateRings(moved, inp.ringDraw);
    GameplayStages(s, moved, inp);
    UpdateTerrain(collected, inp.now, inp.obstacleDraw)
  }

  /** The player moves first, and neither the ring nor the obstacle pass
      moves it afterwards. */
  lemma GameplayMovesPlayerFirst(s: RoundState, inp: FrameInput)
    ensures Gameplay(s, inp).player == UpdateControls(s.player, inp.steer)
  {
    var moved := s.(player := UpdateControls(s.player, inp.steer));
    GameplayStages(s, moved, inp);
  }

  /** The ring stage of a gameplay step, in reference terms: the pickups are
      exactly the uncollected rings within reach of the moved player after
      advancing at the running speed; the other unretired rings stay, in
      order, and a spawn joins at the end. */
  lemma GameplayRingsAreReference(s: RoundState, inp: FrameInput)
    ensures var r := Gameplay(s, inp);
      var p := r.player.pos;
      var rings := AdvanceRings(p, s.stats.speed, s.rings);
      && r.stats == CollectMany(s.stats, CountCollectable(p, rings))
      && r.rings == KeptRings(p, rings) +
           (if inp.ringDraw.roll < SpawnRate * r.stats.speed then [SpawnedRing(inp.ringDraw)] else [])
  {
    var moved := s.(player := UpdateControls(s.player, inp.steer));
    var collected := UpdateRings(moved, inp.ringDraw);
    var r := UpdateTerrain(collected, inp.now, inp.obstacleDraw);
    assert r.stats == collected.stats && r.rings == collected.rings && r.player == moved.player;
  }

  /** The obstacle stage of a gameplay step: every obstacle advances at the
      post-pickup speed, the unretired ones stay in order, and the spawn is
      gated at 23 s since the round started. */
  lemma GameplayObstaclesAreReference(s: RoundState, inp: FrameInput)
    ensures var r := Gameplay(s, inp);
      r.obstacles == Survivors(MoveAll(s.obstacles, ObstacleAdvance(r))) +
        (if Elapsed(inp.now, s.tutorial.tutorialStartTime) >= TutorialSeconds && inp.obstacleDraw.roll < SpawnRate * r.stats.speed
         then [SpawnedObstacle(inp.obstacleDraw)] else [])
  {
    var moved := s.(player := UpdateControls(s.player, inp.steer));
    var collected := UpdateRings(moved, inp.ringDraw);
    RingStageLeaves(moved, inp.ringDraw);
    TerrainStageLeaves(collected, inp.now, inp.obstacleDraw);
    var r := UpdateTerrain(collected, inp.now, inp.obstacleDraw);
    SameObstacleAdvance(r, collected);
    var kept := Survivors(MoveAll(s.obstacles, ObstacleAdvance(r)));
    assert kept + [] == kept;
  }

  /** The crash stage of a gameplay step: a hit by any obstacle advanced at
      the post-pickup speed arms the crash with its first `animateCrash`
      frame already run (a no-op while one is in progress), and the
      game-over screen's score is left alone. */
  lemma GameplayCrashIsReference(s: RoundState, inp: FrameInput)
    ensures var r := Gameplay(s, inp);
      && r.crash == (if AnyHit(r.player.pos, MoveAll(s.obstacles, ObstacleAdvance(r))) then StartCrash(s.crash) else s.crash)
      && r.finalScoreShown == s.finalScoreShown
  {
    var moved := s.(player := UpdateControls(s.player, inp.steer));
    var collected := UpdateRings(moved, inp.ringDraw);
    RingStageLeaves(moved, inp.ringDraw);
    TerrainStageLeaves(collected, inp.now, inp.obstacleDraw);
    var r := UpdateTerrain(collected, inp.now, inp.obstacleDraw);
    SameObstacleAdvance(r, collected);
    ObstacleSweepIsReference(collected.player.pos, ObstacleAdvance(collected), collected.crash, [], collected.obstacles);
  }

  /** One `gameLoop` frame. */
  function Frame(s: RoundState, inp: FrameInput): (r: RoundState)
    ensures s.phase != Playing ==> r == s
    // a frame never ends the round; only the clock and the crash sequencer do
    ensures r.phase == s.phase
    // while crashing only the tutorial block runs: no movement, no pickups
    ensures s.phase == Playing && s.crash.isCrashing ==> r == TutorialStep(s, inp.now)
    // the crash flag is sticky and a running crash is never restarted
    ensures s.crash.isCrashing ==> r.crash == s.crash
    ensures r.stats.score >= s.stats.score
    ensures s.stats.speed >= 0.0 ==> r.stats.speed >= s.stats.speed
  {
    if s.phase != Playing then s
    else
      var t := TutorialStep(s, inp.now);
      if t.crash.isCrashing then t
      else Gameplay(t, inp)
  }

  /** Outside a crash, a frame runs the tutorial block and then the gameplay
      steps on its result. */
  lemma FrameRunsGameplay(s: RoundState, inp: FrameInput)
    requires s.phase == Playing && !s.crash.isCrashing
    ensures Frame(s, inp) == Gameplay(TutorialStep(s, inp.now), inp)
  {
  }

  /** Every frame keeps the round invariant, given a wall clock that does not
      run backwards past the countdown's start. */
  lemma FrameKeepsInv(s: RoundState, inp: FrameInput)
    requires Inv(s)
    requires s.tutorial.countdownActive ==> s.tutorial.countdownStartTime <= inp.now
    ensures Inv(Frame(s, inp))
  {
    if s.phase == Playing {
      TutorialStepKeepsInv(s, inp.now);
      var t := TutorialStep(s, inp.now);
      if !t.crash.isCrashing {
        var moved := t.(player := UpdateControls(t.player, inp.steer));
        ControlsKeepBounds(t.player, inp.steer);
        assert Inv(moved);
        var collected := UpdateRings(moved, inp.ringDraw);
        assert Inv(collected);
        var r := UpdateTerrain(collected, inp.now, inp.obstacleDraw);
        assert r == Gameplay(t, inp);
      }
    }
  }

  /** No obstacle is created while less than 23 s have passed since the round
      started: a round that has none keeps none. */
  lemma NoObstaclesDuringTutorial(s: RoundState, inp: FrameInput)
    requires s.obstacles == []
    requires Elapsed(inp.now, s.tutorial.tutorialStartTime) < TutorialSeconds
    ensures Frame(s, inp).obstacles == []
  {
    if s.phase == Playing {
      var t := TutorialStep(s, inp.now);
      if !t.crash.isCrashing {
        var moved := t.(player := UpdateControls(t.player, inp.steer));
        var collected := UpdateRings(moved, inp.ringDraw);
        assert collected.tutorial.tutorialStartTime == s.tutorial.tutorialStartTime;
        assert |UpdateTerrain(collected, inp.now, inp.obstacleDraw).obstacles| <= 0;
      }
    }
  }

  /** Frames run one after another, with no clock tick or crash frame between. */
  function Frames(s: RoundState, inputs: seq<FrameInput>): (r: RoundState)
    decreases |inputs|
  {
    if inputs == [] then s else Frames(Frame(s, inputs[0]), inputs[1..])
  }

  /** A frame with no steering and spawn rolls that never fire (no roll below
      0.01 can fire at the speeds reached here). */
  predicate QuietInput(inp: FrameInput) {
    inp.steer == NoSteering && inp.ringDraw.roll >= 0.01 && inp.obstacleDraw.roll >= 0.01
  }

  /** A round started at `t0` in which nothing has happened but the tutorial
      clock: nothing spawned, no pickups, the player at rest, and speed and
      obstacle multiplier at their tutorial or live values. */
  predicate QuietRound(s: RoundState, t0: int) {
    && s.phase == Playing
    && s.tutorial.tutorialStartTime == t0
    && s.rings == [] && s.obstacles == []
    && s.crash == NoCrash
    && s.player == AtRest
    && s.stats == FreshStats.(speed := if s.tutorial.tutorialMode then BaseSpeed else BaseSpeed * LiveSpeedFactor)
    && s.tutorial.obstacleSpeedMultiplier == (if s.tutorial.tutorialMode then TutorialMultiplier else LiveMultiplier)
  }

  lemma QuietFrame(s: RoundState, t0: int, inp: FrameInput)
    requires QuietRound(s, t0) && QuietInput(inp)
    ensures QuietRound(Frame(s, inp), t0)
    ensures Frame(s, inp).tutorial.tutorialMode <==>
      s.tutorial.tutorialMode && Elapsed(inp.now, t0) < TutorialSeconds
  {
    var t := TutorialStep(s, inp.now);
    assert t.player == AtRest && t.rings == [] && t.obstacles == [] && !t.crash.isCrashing;
    RestIsFixedPoint();
    var moved := t.(player := UpdateControls(t.player, inp.steer));
    assert moved == t;
    var collected := UpdateRings(moved, inp.ringDraw);
    assert RingSweep(moved.player.pos, moved.stats, [], []) == RingPass(moved.stats, []);
    assert collected == t;
    var r := UpdateTerrain(collected, inp.now, inp.obstacleDraw);
    assert MoveAll([], ObstacleAdvance(t)) == [];
    assert r.obstacles == [];
    assert r == t;
  }

  /** A run of quiet frames stays quiet, and once any of them comes 23 s or
      more after the start, the tutorial is over. */
  lemma {:induction false} QuietFrames(s: RoundState, t0: int, inputs: seq<FrameInput>)
    requires QuietRound(s, t0)
    requires forall i :: 0 <= i < |inputs| ==> QuietInput(inputs[i])
    ensures QuietRound(Frames(s, inputs), t0)
    ensures (exists i :: 0 <= i < |inputs| && Elapsed(inputs[i].now, t0) >= TutorialSeconds) ==>
      !Frames(s, inputs).tutorial.tutorialMode
    ensures !s.tutorial.tutorialMode ==> !Frames(s, inputs).tutorial.tutorialMode
    decreases |inputs|
  {
    if inputs != [] {
      QuietFrame(s, t0, inputs[0]);
      QuietFrames(Frame(s, inputs[0]), t0, inputs[1..]);
      if exists i :: 0 <= i < |inputs| && Elapsed(inputs[i].now, t0) >= TutorialSeconds {
        var i :| 0 <= i < |inputs| && Elapsed(inputs[i].now, t0) >= TutorialSeconds;
        if i > 0 {
          assert inputs[1..][i - 1] == inputs[i];
        }
      }
    }
  }

  /** A round played without input or spawns past the 23 s mark ends its
      tutorial exactly once: speed 1.15, obstacle multiplier 1.2, nothing
      scored, no crash. */
  lemma TutorialEndsOnce(prev: RoundState, t0: int, inputs: seq<FrameInput>)
    requires prev.player == AtRest
    requires forall i :: 0 <= i < |inputs| ==> QuietInput(inputs[i])
    requires |inputs| > 0 && Elapsed(inputs[|inputs| - 1].now, t0) >= TutorialSeconds
    ensures var r := Frames(StartGame(prev, t0), inputs);
      && !r.tutorial.tutorialMode
      && r.stats.speed == 1.15
      && r.tutorial.obstacleSpeedMultiplier == 1.2
      && r.stats.score == 0 && !r.crash.isCrashing
  {
    QuietFrames(StartGame(prev, t0), t0, inputs);
  }

  /** After the round has ended every stray callback is inert: a late frame,
      a late clock tick (which also cancels itself) and a late crash frame
      leave the state as it is. */
  lemma LateCallbacksInert(s: RoundState, inp: FrameInput)
    requires Inv(s) && s.phase != Playing
    ensures Frame(s, inp) == s
    ensures Clock.ClockTick(s) == Clock.Tick(s, false)
    ensures CrashFrame(s) == s
  {
  }
}

=== FILE: geometry.dfy ===
/** Points, velocities and the saturating clamp used by the round-state model.
    JavaScript doubles are abstracted as exact reals. */
module Geometry {

  /** A position or velocity in world space (three.js units). */
  datatype Vec3 = Vec3(x: real, y: real, z: real)

  const Origin: Vec3 := Vec3(0.0, 0.0, 0.0)

  function MinReal(a: real, b: real): (r: real)
    ensures r <= a && r <= b
    ensures r == a || r == b
  {
    if a <= b then a else b
  }

  function MaxReal(a: real, b: real): (r: real)
    ensures a <= r && b <= r
    ensures r == a || r == b
  {
    if a <= b then b else a
  }

  /** `Math.max(lo, Math.min(hi, v))`: saturates v into [lo, hi]. */
  function Clamp(lo: real, hi: real, v: real): (r: real)
    requires lo <= hi
    ensures lo <= r <= hi
    ensures lo <= v <= hi ==> r == v
    ensures v < lo ==> r == lo
    ensures hi < v ==> r == hi
  {
    MaxReal(lo, MinReal(hi, v))
  }

  /** Squared Euclidean distance; the source compares `distanceTo` against a
      radius, which for non-negative radii is the same as comparing squares. */
  function DistSq(a: Vec3, b: Vec3): (r: real)
    ensures r >= (a.y - b.y) * (a.y - b.y) >= 0.0
    ensures r >= (a.z - b.z) * (a.z - b.z) >= 0.0
  {
    (a.x - b.x) * (a.x - b.x) + (a.y - b.y) * (a.y - b.y) + (a.z - b.z) * (a.z - b.z)
  }

  /** Squaring is strictly monotone above a non-negative bound. */
  lemma SquareAbove(a: real, c: real)
    requires 0.0 <= c
    ensures a > c ==> a * a > c * c
  {
    if a > c {
      var d := a - c;
      assert d > 0.0;
      assert a * a == c * c + 2.0 * c * d + d * d;
      assert c * d >= 0.0;
      assert d * d > 0.0;
    }
  }
}

=== FILE: kinematics.dfy ===
/** Player kinematics of `updateControls`: key impulses, the mouse/touch
    override, position integration, damping and the saturating clamps. */
module Kinematics {
  import opened Geometry

  /** The player's position and velocity (`gavPosition`, `gavVelocity`). */
  datatype Body = Body(pos: Vec3, vel: Vec3)

  const AtRest: Body := Body(Origin, Origin)

  /** The steering input seen by one frame: which direction keys are held
      (W/ArrowUp, S/ArrowDown, A/ArrowLeft, D/ArrowRight), whether the mouse
      or a touch is down, and the normalised pointer position. */
  datatype Steering = Steering(up: bool, down: bool, left: bool, right: bool,
                               mouseDown: bool, mouseX: real, mouseY: real)

  const NoSteering: Steering := Steering(false, false, false, false, false, 0.0, 0.0)

  const KeyImpulse: real := 0.04
  const MouseSensitivity: real := 0.8
  const Damping: real := 0.9

  const MinX: real := -4.0
  const MaxX: real := 4.0
  const MinY: real := -0.4
  const MaxY: real := 3.5
  /** Ground plane height and the head radius used by the ground clamp. */
  const GroundY: real := -2.0
  const HeadRadius: real := 0.6

  /** The lane the player is kept inside; z never changes. */
  predicate InBounds(p: Vec3) {
    MinX <= p.x <= MaxX && MinY <= p.y <= MaxY && p.z == 0.0
  }

  /** Velocity after the key impulses and the pointer override, before it is
      added to the position and damped. */
  function Steer(v: Vec3, st: Steering): (r: Vec3)
    ensures r.z == v.z
    ensures st.mouseDown ==> r.x == MouseSensitivity * st.mouseX && r.y == MouseSensitivity * st.mouseY
    ensures !st.mouseDown && st.up == st.down ==> r.y == v.y
    ensures !st.mouseDown && st.up && !st.down ==> r.y == v.y + KeyImpulse
    ensures !st.mouseDown && st.down && !st.up ==> r.y == v.y - KeyImpulse
    ensures !st.mouseDown && st.left == st.right ==> r.x == v.x
    ensures !st.mouseDown && st.right && !st.left ==> r.x == v.x + KeyImpulse
    ensures !st.mouseDown && st.left && !st.right ==> r.x == v.x - KeyImpulse
  {
    var y1 := if st.up then v.y + KeyImpulse else v.y;
    var y2 := if st.down then y1 - KeyImpulse else y1;
    var x1 := if st.left then v.x - KeyImpulse else v.x;
    var x2 := if st.right then x1 + KeyImpulse else x1;
    if st.mouseDown then Vec3(st.mouseX * MouseSensitivity, st.mouseY * MouseSensitivity, v.z)
    else Vec3(x2, y2, v.z)
  }

  /** The head-bottom test: lifts y so the head (radius 0.6) does not sink
      below the ground plane. */
  function GroundClamp(y: real): (r: real)
    ensures r >= GroundY + HeadRadius
    ensures y >= GroundY + HeadRadius ==> r == y
    ensures y < GroundY + HeadRadius ==> r == GroundY + HeadRadius
  {
    if y - HeadRadius < GroundY then GroundY + HeadRadius else y
  }

  /** Once y has been clamped into [MinY, MaxY] the ground clamp is inert. */
  lemma GroundClampNeverFires(y: real)
    requires MinY <= y
    ensures GroundClamp(y) == y
    ensures !(y - HeadRadius < GroundY)
  {
  }

  /** One call of `updateControls` on position and velocity. */
  function UpdateControls(b: Body, st: Steering): (r: Body)
    ensures MinX <= r.pos.x <= MaxX && MinY <= r.pos.y <= MaxY
    ensures r.pos.z == b.pos.z && r.vel.z == b.vel.z
    // the (steered) velocity is added to the position first, then damped
    ensures var v := Steer(b.vel, st);
      r.vel.x == Damping * v.x && r.vel.y == Damping * v.y
    ensures var v := Steer(b.vel, st);
      MinX <= b.pos.x + v.x <= MaxX && MinY <= b.pos.y + v.y <= MaxY ==>
        r.pos.x == b.pos.x + v.x && r.pos.y == b.pos.y + v.y
    ensures var v := Steer(b.vel, st);
      (b.pos.x + v.x > MaxX ==> r.pos.x == MaxX) && (b.pos.x + v.x < MinX ==> r.pos.x == MinX)
    ensures var v := Steer(b.vel, st);
      (b.pos.y + v.y > MaxY ==> r.pos.y == MaxY) && (b.pos.y + v.y < MinY ==> r.pos.y == MinY)
  {
    var v := Steer(b.vel, st);
    // only x and y are integrated; z stays on the lane
    var moved := Vec3(b.pos.x + v.x, b.pos.y + v.y, b.pos.z);
    var damped := Vec3(v.x * Damping, v.y * Damping, v.z);
    var x := Clamp(MinX, MaxX, moved.x);
    var y := Clamp(MinY, MaxY, moved.y);
    GroundClampNeverFires(y);
    Body(Vec3(x, GroundClamp(y), moved.z), damped)
  }

  /** With the pointer down, the new velocity does not depend on the old one. */
  lemma PointerOverridesVelocity(b1: Body, b2: Body, st: Steering)
    requires st.mouseDown
    requires b1.vel.z == b2.vel.z
    ensures UpdateControls(b1, st).vel == UpdateControls(b2, st).vel
    ensures UpdateControls(b1, st).vel.x == Damping * MouseSensitivity * st.mouseX
    ensures UpdateControls(b1, st).vel.y == Damping * MouseSensitivity * st.mouseY
  {
  }

  /** Without input the player coasts: each frame keeps 90% of the velocity. */
  lemma CoastingDecays(b: Body)
    ensures UpdateControls(b, NoSteering).vel == Vec3(Damping * b.vel.x, Damping * b.vel.y, b.vel.z)
  {
  }

  /** A player at rest with no input stays where it is. */
  lemma RestIsFixedPoint()
    ensures UpdateControls(AtRest, NoSteering) == AtRest
  {
  }

  /** `updateControls` keeps the lane invariant for any prior velocity. */
  lemma ControlsKeepBounds(b: Body, st: Steering)
    requires b.pos.z == 0.0
    ensures InBounds(UpdateControls(b, st).pos)
  {
  }
}

=== FILE: round.dfy ===
/** The per-round state of the game and the two reset operations that begin
    and end a round (`startGame`, `gameOver`). */
module Round {
  import opened Geometry
  import opened Kinematics
  import opened Entities

  /** `gameState`: 'splash', 'playing', 'gameOver' (here `Finished`). */
  datatype Phase = Splash | Playing | Finished

  /** Score, remaining time, pickup streak and the global speed scalar. */
  datatype Stats = Stats(score: int, timeLeft: real, streak: int, speed: real)

  /** The tutorial phase controller: the tutorial flag, the countdown display
      and its latch, the obstacle speed multiplier and the headbang latch.
      Times are `Date.now()` values in milliseconds. */
  datatype TutorialState = TutorialState(
    tutorialMode: bool,
    tutorialStartTime: int,
    countdownStartTime: int,
    countdownValue: int,
    countdownActive: bool,
    obstacleSpeedMultiplier: real,
    headbangActive: bool,
    headbangStartTime: int)

  /** The crash flag and the crash sequencer's accumulated time. */
  datatype CrashState = CrashState(isCrashing: bool, crashTime: real)

  /** Everything the game loop, the depletion clock and the crash sequencer
      read or write. `finalScoreShown` is the number the game-over screen
      displays. */
  datatype RoundState = RoundState(
    phase: Phase,
    stats: Stats,
    tutorial: TutorialState,
    crash: CrashState,
    player: Body,
    rings: seq<Ring>,
    obstacles: seq<Obstacle>,
    finalScoreShown: int)

  const RoundSeconds: real := 60.0
  const BaseSpeed: real := 1.0
  const CountdownFrom: int := 20
  const TutorialMultiplier: real := 1.0
  const LiveMultiplier: real := 1.2
  /** The crash sequencer ends the round once crash time exceeds this. */
  const CrashDuration: real := 2.0

  const FreshStats: Stats := Stats(0, RoundSeconds, 0, BaseSpeed)
  const NoCrash: CrashState := CrashState(false, 0.0)

  /** The tutorial values both `startGame` and `gameOver` restore; only the
      tutorial start time and the headbang latch are left free. */
  predicate TutorialReset(t: TutorialState) {
    && t.tutorialMode
    && t.countdownStartTime == 0
    && t.countdownValue == CountdownFrom
    && !t.countdownActive
    && t.obstacleSpeedMultiplier == TutorialMultiplier
  }

  /** The round values both `startGame` and `gameOver` restore. */
  predicate RoundReset(s: RoundState) {
    && s.stats == FreshStats
    && TutorialReset(s.tutorial)
    && s.crash == NoCrash
    && s.rings == []
    && s.obstacles == []
  }

  /** The invariant of the tutorial controller. */
  predicate TutorialInv(t: TutorialState) {
    && 0 <= t.countdownValue <= CountdownFrom
    && (!t.countdownActive ==> t.countdownValue == CountdownFrom)
    && (t.tutorialMode ==> t.obstacleSpeedMultiplier == TutorialMultiplier)
    && (!t.tutorialMode ==> t.obstacleSpeedMultiplier == LiveMultiplier)
  }

  predicate StatsInv(st: Stats) {
    && st.speed >= BaseSpeed
    && st.streak >= 0
    && st.score == RingScore * st.streak
    && st.timeLeft > 0.0
  }

  predicate CrashInv(c: CrashState) {
    && (c.isCrashing ==> 0.0 < c.crashTime <= CrashDuration)
    && (!c.isCrashing ==> c.crashTime == 0.0)
  }

  predicate LiveRings(rings: seq<Ring>) {
    forall i :: 0 <= i < |rings| ==> !rings[i].collected
  }

  /** The invariant every reachable state keeps. */
  predicate Inv(s: RoundState) {
    && StatsInv(s.stats)
    && TutorialInv(s.tutorial)
    && CrashInv(s.crash)
    && InBounds(s.player.pos)
    && (s.crash.isCrashing ==> s.phase == Playing)
    && (s.phase != Playing ==> s.rings == [] && s.obstacles == [])
    && LiveRings(s.rings)
  }

  /** The state the constructor leaves: the splash screen with a fresh round.
      (The constructor leaves the crash fields undefined; both read as off.
      It also leaves `obstacles` undefined, creating an empty `terrain` list
      instead; the first `startGame` creates the obstacle list, so it is
      modelled as empty.) */
  function Initial(): (r: RoundState)
    ensures r.phase == Splash
    ensures RoundReset(r)
    ensures r.player == AtRest
    ensures !r.tutorial.headbangActive
    ensures Inv(r)
  {
    RoundState(Splash, FreshStats,
               TutorialState(true, 0, 0, CountdownFrom, false, TutorialMultiplier, false, 0),
               NoCrash, AtRest, [], [], 0)
  }

  /** `startGame`: a new round begins at wall-clock time `now`. The player is
      not touched here (the preceding `gameOver` or the constructor left it at
      rest), and neither is the headbang latch. */
  function StartGame(s: RoundState, now: int): (r: RoundState)
    ensures r.phase == Playing
    ensures RoundReset(r)
    ensures r.tutorial.tutorialStartTime == now
    ensures r.player == s.player
    ensures r.tutorial.headbangActive == s.tutorial.headbangActive
    ensures r.tutorial.headbangStartTime == s.tutorial.headbangStartTime
    ensures InBounds(s.player.pos) ==> Inv(r)
  {
    s.(phase := Playing, stats := FreshStats, rings := [], obstacles := [], crash := NoCrash,
       tutorial := s.tutorial.(tutorialMode := true, tutorialStartTime := now, countdownStartTime := 0,
                               countdownValue := CountdownFrom, countdownActive := false,
                               obstacleSpeedMultiplier := TutorialMultiplier))
  }

  /** The reset shared by both versions of `gameOver`: round values, entity
      lists, player position and velocity; the headbang latch survives. */
  function ResetRound(s: RoundState): (r: RoundState)
    ensures r.phase == Finished
    ensures RoundReset(r)
    ensures r.player == AtRest
    ensures r.tutorial.tutorialStartTime == 0
    ensures r.tutorial.headbangActive == s.tutorial.headbangActive
    ensures r.tutorial.headbangStartTime == s.tutorial.headbangStartTime
    ensures Inv(r)
  {
    s.(phase := Finished, stats := FreshStats, crash := NoCrash,
       tutorial := s.tutorial.(tutorialMode := true, tutorialStartTime := 0, countdownStartTime := 0,
                               countdownValue := CountdownFrom, countdownActive := false,
                               obstacleSpeedMultiplier := TutorialMultiplier),
       rings := [], obstacles := [], player := AtRest)
  }

  /** `gameOver` as written: the score is zeroed before it is copied to the
      game-over screen, so the screen shows the reset value. */
  function GameOverAsWritten(s: RoundState): (r: RoundState)
    ensures r.phase == Finished && RoundReset(r) && r.player == AtRest
    ensures r.finalScoreShown == 0
  {
    var reset := ResetRound(s);
    reset.(finalScoreShown := reset.stats.score)
  }

  /** A round that scored 500 is reported as 0 by the code as written, while
      the corrected `GameOver` reports 500. */
  lemma FinalScoreAlwaysZeroAsWritten()
    ensures var s := Initial().(phase := Playing, stats := Stats(500, 30.0, 5, 1.05));
      GameOverAsWritten(s).finalScoreShown == 0 && GameOver(s).finalScoreShown == 500
  {
  }

  /** `gameOver` with the final score captured before the reset, as the
      game-over screen evidently intends. */
  function GameOver(s: RoundState): (r: RoundState)
    ensures r.phase == Finished && RoundReset(r) && r.player == AtRest
    ensures r.finalScoreShown == s.stats.score
    ensures Inv(r)
    ensures r.(finalScoreShown := 0) == GameOverAsWritten(s)
  {
    ResetRound(s).(finalScoreShown := s.stats.score)
  }

  /** Nothing of a finished round leaks into the next one: a restart after
      `gameOver` depends only on the clock and the headbang latch (apart from
      the previous round's score still standing on the game-over screen). */
  lemma RestartForgetsRound(s1: RoundState, s2: RoundState, now: int)
    requires s1.tutorial.headbangActive == s2.tutorial.headbangActive
    requires s1.tutorial.headbangStartTime == s2.tutorial.headbangStartTime
    ensures StartGame(GameOver(s1), now).(finalScoreShown := 0) == StartGame(GameOver(s2), now).(finalScoreShown := 0)
  {
  }

  /** A round started from the splash screen or after a game over begins with
      the player at rest on the lane and the invariant established. */
  lemma StartsAtRest(s: RoundState, now: int)
    requires s == Initial() || (s.phase == Finished && s.player == AtRest)
    ensures StartGame(s, now).player == AtRest
    ensures Inv(StartGame(s, now))
  {
  }
}

=== FILE: tutorial.dfy ===
/** The time-gated tutorial block at the top of `gameLoop`: grace period,
    countdown display and the one-shot switch to live play. */
module Tutorial {
  import opened Round

  /** Seconds between two `Date.now()` readings. */
  function Elapsed(now: int, since: int): (r: real) {
    (now - since) as real / 1000.0
  }

  const CountdownDelay: real := 3.0
  const TutorialSeconds: real := 23.0
  const LiveSpeedFactor: real := 1.15

  /** The whole seconds of an elapsed time are the milliseconds divided by
      1000, rounded down. */
  lemma ElapsedFloor(now: int, since: int)
    ensures Elapsed(now, since).Floor == (now - since) / 1000
  {
    var d := now - since;
    var q, m := d / 1000, d % 1000;
    assert d == 1000 * q + m && 0 <= m < 1000;
    assert Elapsed(now, since) == q as real + m as real / 1000.0;
    var f := Elapsed(now, since).Floor;
    assert f as real <= Elapsed(now, since) < f as real + 1.0;
    assert q as real <= Elapsed(now, since) < q as real + 1.0;
  }

  /** `Math.max(0, 20 - Math.floor(countdownElapsed))`. */
  function CountdownValue(now: int, start: int): (r: int)
    ensures r >= 0
    ensures start <= now ==> r <= CountdownFrom
    ensures now == start ==> r == CountdownFrom
    ensures r > 0 ==> r == CountdownFrom - Elapsed(now, start).Floor
    // in whole milliseconds: one step down per full second, 0 from 20 s on
    ensures start <= now ==>
      r == (if now - start >= 20000 then 0 else CountdownFrom - (now - start) / 1000)
  {
    ElapsedFloor(now, start);
    var v := CountdownFrom - Elapsed(now, start).Floor;
    if v < 0 then 0 else v
  }

  /** The displayed countdown never goes up as time passes. */
  lemma CountdownNonIncreasing(start: int, t1: int, t2: int)
    requires t1 <= t2
    ensures CountdownValue(t2, start) <= CountdownValue(t1, start)
  {
    assert Elapsed(t1, start) <= Elapsed(t2, start);
  }

  /** The countdown reaches 0 once 20 s have passed since it started. */
  lemma CountdownReachesZero(start: int, now: int)
    requires Elapsed(now, start) >= 20.0
    ensures CountdownValue(now, start) == 0
  {
  }

  /** The tutorial block of one frame at wall-clock time `now`. */
  function TutorialStep(s: RoundState, now: int): (r: RoundState)
    // outside the tutorial the block is skipped entirely
    ensures !s.tutorial.tutorialMode ==> r == s
    // the countdown is activated once, when 3 s have passed
    ensures r.tutorial.countdownActive <==>
      || s.tutorial.countdownActive
      || (s.tutorial.tutorialMode && Elapsed(now, s.tutorial.tutorialStartTime) >= CountdownDelay)
    ensures && s.tutorial.tutorialMode && !s.tutorial.countdownActive
            && Elapsed(now, s.tutorial.tutorialStartTime) >= CountdownDelay ==>
      r.tutorial.countdownStartTime == now && r.tutorial.countdownValue == CountdownFrom
    ensures r.tutorial.countdownActive && s.tutorial.tutorialMode ==>
      r.tutorial.countdownValue == CountdownValue(now, r.tutorial.countdownStartTime)
    // once running, the countdown keeps the time it started at
    ensures s.tutorial.countdownActive ==> r.tutorial.countdownStartTime == s.tutorial.countdownStartTime
    // a tutorial frame before 3 s leaves the tutorial controller alone
    ensures !r.tutorial.countdownActive ==> r.tutorial == s.tutorial
    // the live switch happens exactly on a tutorial frame at or past 23 s
    ensures r.tutorial.tutorialMode <==>
      s.tutorial.tutorialMode && Elapsed(now, s.tutorial.tutorialStartTime) < TutorialSeconds
    ensures s.tutorial.tutorialMode && !r.tutorial.tutorialMode ==>
      && r.stats.speed == s.stats.speed * LiveSpeedFactor
      && r.tutorial.obstacleSpeedMultiplier == LiveMultiplier
      && r.tutorial.headbangActive
      && (s.tutorial.headbangActive ==> r.tutorial.headbangStartTime == s.tutorial.headbangStartTime)
      && (!s.tutorial.headbangActive ==> r.tutorial.headbangStartTime == now)
    ensures r.tutorial.tutorialMode || !s.tutorial.tutorialMode ==>
      && r.stats.speed == s.stats.speed
      && r.tutorial.obstacleSpeedMultiplier == s.tutorial.obstacleSpeedMultiplier
      && r.tutorial.headbangActive == s.tutorial.headbangActive
      && r.tutorial.headbangStartTime == s.tutorial.headbangStartTime
    // nothing but the tutorial controller and the speed changes
    ensures r.tutorial.tutorialStartTime == s.tutorial.tutorialStartTime
    ensures r.(tutorial := s.tutorial, stats := s.stats) == s
    ensures r.stats.(speed := s.stats.speed) == s.stats
  {
    var t := s.tutorial;
    if !t.tutorialMode then s
    else
      var elapsed := Elapsed(now, t.tutorialStartTime);
      var t1 :=
        if elapsed >= CountdownDelay && !t.countdownActive then
          t.(countdownActive := true, countdownStartTime := now, countdownValue := CountdownFrom)
        else t;
      var t2 :=
        if t1.countdownActive then t1.(countdownValue := CountdownValue(now, t1.countdownStartTime))
        else t1;
      if elapsed >= TutorialSeconds then
        var live := t2.(tutorialMode := false, obstacleSpeedMultiplier := LiveMultiplier);
        var t3 := if !live.headbangActive then live.(headbangActive := true, headbangStartTime := now)
                  else live;
        s.(tutorial := t3, stats := s.stats.(speed := s.stats.speed * LiveSpeedFactor))
      else s.(tutorial := t2)
  }

  /** The live switch is one-shot: once it has run, every later tutorial
      block (at any time) leaves the state alone, so speed is multiplied once. */
  lemma LiveSwitchOnce(s: RoundState, t1: int, t2: int)
    requires s.tutorial.tutorialMode
    requires Elapsed(t1, s.tutorial.tutorialStartTime) >= TutorialSeconds
    ensures TutorialStep(TutorialStep(s, t1), t2) == TutorialStep(s, t1)
    ensures TutorialStep(s, t1).stats.speed == s.stats.speed * LiveSpeedFactor
  {
  }

  /** The tutorial block keeps the invariant on a clock that does not run
      backwards past the countdown's start. */
  lemma TutorialStepKeepsInv(s: RoundState, now: int)
    requires Inv(s)
    requires s.tutorial.countdownActive ==> s.tutorial.countdownStartTime <= now
    ensures Inv(TutorialStep(s, now))
    ensures var r := TutorialStep(s, now);
      r.tutorial.countdownActive ==> r.tutorial.countdownStartTime <= now
  {
    var r := TutorialStep(s, now);
    if s.tutorial.tutorialMode && !r.tutorial.tutorialMode {
      assert r.stats.speed == s.stats.speed * LiveSpeedFactor >= s.stats.speed;
    }
  }
}
